=== FILE: README.md ===
# Limit-order-book depth bot: client and chart utilities, modelled in Dafny

The bot pulls limit-order-book depth snapshots from an authenticated HTTP
service and renders depth charts for a Telegram user. This project models the
two parts of it that carry decisions:

- the chart utilities (`app/services/utils.py`): the table of depth bands and
  their column names (`get_depths`), the greedy message chunker
  (`split_list_into_strings`), and the decision skeleton of
  `make_chart_depth` (its errors, the time sort, the lower-panel series and
  the caption);
- the `APIClient` (`app/services/api_client.py`) as a state machine over
  (session, token, expiry): base-URL normalisation, `ensure_session`/`close`,
  `authenticate`, `is_token_valid`, `get` with its one re-authentication and
  one retry after a 401, and `_handle_response`.

Files:

- `common.dfy` — `Option`, `Result`, and the decimal rendering of integers
  used by the f-strings.
- `depths.dfy` — module `Depths`: the band table and `GetDepths`.
- `chunking.dfy` — module `Chunking`: `SplitListIntoStrings` as a fold of the
  source's loop body (`Feed`) over the items, and its properties.
- `chart.dfy` — module `Chart`: frames, the time sort and `MakeChartDepth`,
  which returns a plan (ordered rows, caption, lower panel) instead of a file.
- `api_client.dfy` — module `ApiClient`: the client state, the oracle that
  answers its requests, `Authenticate`, `EnsureSession`, `Close`, `Get`, and
  the retry-policy lemmas.

Modelling choices:

- Exceptions become `Result.Err` values (`ChartError`, `DepthError`).
  `authenticate` catches every exception it meets and returns `False`, and
  `get` turns every exception raised while sending its GETs or reading their
  answers (reading the body as text or as JSON included) into an
  `{"error": str(e)}` body; the model does the same. Opening the
  `aiohttp.ClientSession` in `ensure_session` and closing it in `close` sit
  outside any `try`; the model takes both to succeed.
- The network is an oracle. `Network` holds the answers to the five exchanges
  one `get` can have: authentication when the session is opened,
  authentication because the token is not valid, the first GET,
  re-authentication after a 401, and the retried GET. Each run returns the
  list of requests it sent (`PostToken`, `HttpGet`), so "how many requests"
  is a property of the result.
- Time is an integer number of seconds passed in by the caller. The token
  lifetime is 30 minutes, which is 1800 seconds.
- A token request succeeds only on status 200 with a body holding
  `access_token`. A 200 whose body lacks it raises inside the `try` in the
  source, so it is a failure. Calling `authenticate` without a session raises
  on `None.post`, which is caught, so it returns false and sends nothing.
- `is_token_valid` uses Python truthiness, so an empty token string counts as
  no token.
- `df.empty` holds when the frame has no rows or no columns. A row's
  `event_time` is an integer timestamp. Its other cells are an opaque value.
- The items given to `split_list_into_strings` are taken after `str()`, as
  strings. `item[:max_length]` is modelled with Python's slicing rules, and
  that includes a negative `max_length`.

## Behaviour worth knowing

- A failed authentication leaves the old token and expiry in place.
- A retry that is answered 401 again is reported like any other HTTP error,
  as `{"error": "HTTP 401: <text>"}`; there is no third attempt.
- A failed authentication before the first GET gives "Authentication
  failed". A failed re-authentication gives "Re-authentication failed".
- `sort_values('event_time')` uses pandas' default sort, which is not stable,
  so the order of rows with equal timestamps is not determined. The model
  promises an ordered permutation and nothing more.
- Only the raw-depth view (variant 0) needs the depth columns. It indexes
  them and raises `KeyError` when one is missing. The ratio and difference
  views skip their plot when a column is missing, and they still return
  their caption.
- A variant outside 0–2 is not an error. It gives an empty caption and an
  empty lower panel.
- `ensure_session` authenticates whenever it opens a session, even while the
  token is still valid. So after `close`, the next `get` always asks for a
  token first.

## Model

| member | source | states |
|---|---|---|
| `Depths.GetDepths` | app/services/utils.py:12-22 | succeeds exactly for bands 1, 3, 5, 8, and then gives `depth_<band>pct_bid` and `depth_<band>pct_ask`. Any other band gives `InvalidDepth(band)` and no columns |
| `Depths.ColumnsDistinct` | app/services/utils.py:12-17 | within a band the bid and ask columns differ, and two different bands share no column |
| `Chunking.TakePrefix` | app/services/utils.py:48 | Python's `s[:n]` is a prefix of `s`. Its length is `min(n, len(s))` for `n >= 0`, and `len(s)` reduced by `-n` (at least 0) for negative `n` |
| `Chunking.SplitListIntoStrings` | app/services/utils.py:24-60 | an empty list gives no chunks. A non-empty list gives between 1 and `len(items)` chunks. When every item fits in `max_length`, every chunk fits too, and joining the chunks with the separator gives back all items joined, in order |
| `Chunking.SplitPacksGreedily` | app/services/utils.py:24-60 | when every item fits, the packing is greedy: any two neighbouring chunks joined by the separator would exceed `max_length` |
| `Chunking.FeedAllGreedy` | app/services/utils.py:36-54 | over items that all fit, the loop keeps the greedy invariant: the emitted chunks are packed greedily, and once a chunk has been emitted a chunk is open whose first item did not fit after it |
| `Chunking.FeedAllCount` | app/services/utils.py:32-58 | each loop iteration adds at most one chunk (emitted or open), and once an item has been seen there is at least one |
| `Chunking.FeedAllKeepsText` | app/services/utils.py:32-58 | `Feed` is the loop body (utils.py:33-54) and `FeedAll` the loop. Over items that all fit, the loop keeps its invariant: the tracked `current_length` equals the open chunk's joined length, every chunk fits, and the chunks joined equal the items seen, joined |
| `Chunking.OversizedOnEmptyChunkIsCut` | app/services/utils.py:41-51 | an oversized item arriving when no chunk is open is emitted alone as `item[:max_length]`, and the items after it are chunked as if the list started there |
| `Chunking.OversizedAfterOpenChunkIsKept` | app/services/utils.py:32-58 | an oversized item arriving while a chunk is open (whatever that chunk holds, an earlier kept-whole item included), followed by any further items, is kept whole as a chunk of its own right after the chunks of the items before it. The result then breaks the length bound, so the bound needs every item to fit |
| `Chunking.OversizedAfterFittingItemsIsKept` | app/services/utils.py:32-58 | after a non-empty list of fitting items a chunk is always open, so an oversized item that follows is kept whole right after their chunks |
| `Chunking.OversizedAfterOversizedIsKept` | app/services/utils.py:36-46 | `["a", "XXXXX", "YYYYY"]` with limit 3 and separator `", "` is chunked into the three items unchanged: the second oversized item closes a chunk that holds only the first |
| `Chunking.FeedAllKeepsResults` | app/services/utils.py:32-58 | the loop only ever appends to the chunks already emitted |
| `Chart.SortByEventTime` | app/services/utils.py:69 | the rows come out in non-decreasing `event_time` and form a permutation of the input rows |
| `Chart.Description` | app/services/utils.py:97-118 | variants 0, 1 and 2 give a caption starting with `Depth (<pct>%`, and any other variant gives the empty caption |
| `Chart.DescriptionsDistinct` | app/services/utils.py:100-118 | over valid bands and variants 0–2, the caption identifies the chart: different (band, variant) pairs never share a caption |
| `Chart.MakeChartDepth` | app/services/utils.py:62-126 | fails exactly on an empty frame, a missing `event_time`, `best_bid` or `best_ask` column, an unknown band, or a missing depth column under variant 0, with the first failing check deciding the error. On success the rows are the input ordered by time, the caption depends only on band and variant, and the lower panel is `PanelFor` (the variant branch, utils.py:100-126): raw depth lines for variant 0, the ratio for variant 1 and the difference percentage for variant 2 when both depth columns are present, and nothing otherwise |
| `ApiClient.StripTrailingSlashes` | app/services/api_client.py:9 | Python's `rstrip('/')`: the result is a prefix of the input, everything removed is `/`, and the result does not end in `/` |
| `ApiClient.StripTrailingSlashesIdempotent` | app/services/api_client.py:9 | stripping trailing slashes a second time changes nothing |
| `ApiClient.New` | app/services/api_client.py:8-14 | the stored base URL is the given one minus its trailing slashes and does not end in `/`. There is no token, no expiry and no session |
| `ApiClient.Close` | app/services/api_client.py:21-24 | afterwards no session is open, and the configuration, token and expiry are unchanged |
| `ApiClient.CloseForcesAuthentication` | app/services/api_client.py:16-24 | after `close`, the first request of the next `get` is a token request, whatever the token's validity |
| `ApiClient.EnsureSession` | app/services/api_client.py:16-19 | with a session open it sends nothing and changes nothing. Without one it opens a session and sends exactly one token request; if that request is accepted it stores the token with expiry now + 1800 s, and nothing else changes in either case |
| `ApiClient.Authenticate` | app/services/api_client.py:26-51 | returns true exactly when a session is open and the answer is a 200 carrying a token. Then it stores that token with expiry now + 1800 s. Otherwise it leaves the state unchanged, old token included. It sends one token request if and only if a session is open |
| `ApiClient.TokenValidityWindow` | app/services/api_client.py:39-55 | `IsTokenValid` is `is_token_valid` (api_client.py:53-55): a token is held and is not empty (Python truthiness), an expiry is held, and `now` is before it. After a successful authentication at `now` with a non-empty token, the token is valid at `t` exactly when `t < now + 1800`. A failed authentication does not change validity at any instant |
| `ApiClient.HandleResponse` | app/services/api_client.py:95-102 | status 200 gives the decoded JSON, or the decoding exception. Any other status gives a JSON object whose only key is `error`, holding `"HTTP " + code + ": " + text` where `code` reads back as the response's status; an exception while reading the text propagates instead |
| `Common.IntToStringReadsBack` | app/services/api_client.py:102 | the f-string rendering of an integer is a well-formed decimal numeral (sign, no leading zero) whose value is that integer |
| `ApiClient.UnauthorizedMessage` | app/services/api_client.py:95-102 | a 401 response is mapped to `{"error": "HTTP 401: <text>"}`, or to the exception raised while reading its text |
| `ApiClient.Prepare` | app/services/api_client.py:59-63 | after the session check the GET may be sent exactly when the token is valid or the lazy authentication is accepted. It sends at most two token requests and no GET, and with a session and a valid token it sends nothing |
| `ApiClient.Send` | app/services/api_client.py:65-93 | sends one or two GETs and at most one token request. It sends two GETs exactly when the first is answered 401 and re-authentication is accepted |
| `ApiClient.Get` | app/services/api_client.py:57-93 | at most two GETs and three token requests per call, so it never loops. The session is open afterwards and the configuration is unchanged. No GET is sent exactly when no usable token was obtained, and then the body is "Authentication failed" |
| `ApiClient.GetFailsWithoutToken` | app/services/api_client.py:59-63 | an invalid token plus a failed authentication gives "Authentication failed" and no GET |
| `ApiClient.GetWithValidTokenSkipsAuthentication` | app/services/api_client.py:59-77 | with a session and a valid token, the first request is the GET with that token's bearer header |
| `ApiClient.GetHandlesFirstAnswer` | app/services/api_client.py:72-93 | a first answer other than 401 is the only GET. A transport exception gives `{"error": str(e)}`, and a response goes through `_handle_response`, whose exceptions `Settle` (the `except` at api_client.py:91-93) turns into `{"error": str(e)}` |
| `ApiClient.RetriesOnceAfterUnauthorized` | app/services/api_client.py:78-86 | after a 401, exactly one token request follows. When it is accepted, exactly one retry is sent with the new token's bearer header, and the retry's answer is the result |
| `ApiClient.NoRetryWhenReauthenticationFails` | app/services/api_client.py:78-88 | after a 401 whose one re-authentication fails, the body is "Re-authentication failed" and no further GET is sent |
| `ApiClient.SecondUnauthorizedIsReported` | app/services/api_client.py:78-102 | a retry answered 401 gives `{"error": "HTTP 401: <text>"}` (or `{"error": str(e)}` when reading the text raises) after exactly two GETs |
| `ApiClient.NoAuthenticationWhileTokenValid` | app/services/api_client.py:53-93 | while the token stays valid and no GET is answered 401, a series of `get` calls sends one GET each, sends no token request, and leaves the state unchanged |
| `ApiClient.AuthenticatesOncePerLifetime` | app/services/api_client.py:16-93 | a client without a session whose first authentication succeeds asks for a token exactly once over a series of `get` calls within the token's lifetime that meet no 401 |

## Left out

- Drawing the figure, styling, `savefig`, the pid-based file name under
  `/tmp/images` and closing the figure are not modelled. They are plotting
  and file-system side effects. The chart is represented by the plan it
  would draw.
- The ratio and difference-percentage series are not modelled. They are
  pandas floating-point arithmetic, and a zero denominator gives inf or NaN.
  The plan only names which series the panel plots.
- A missing (`NaT`) `event_time` is not modelled. Timestamps are integers,
  so pandas' placement of missing values at the end does not arise.
- `get` passes query parameters through to aiohttp unchanged, and the model
  omits them.
- An exception raised by `aiohttp.ClientSession()` in `ensure_session` or by
  `session.close()` in `close` is not modelled. Both run outside any `try`,
  so such an exception would reach the caller of `get` or `close`; the model
  takes both to succeed.
- The real aiohttp session, the wall clock and logging are not modelled. The
  network is an oracle and time is a parameter, and one call of `get` reads
  one instant.
- The code has no locking or single-flight authentication, so concurrency
  and interleaved calls are not modelled.
- A JSON `access_token` that is not a string (a number or `null`) is not
  modelled. Tokens are strings.
- `lob_data.py`, `msg_manager.py`, `api.py`, the bot handlers, `main.py` and
  `config.py` are not part of this model. They are fetch wiring, Telegram
  delivery, a thin HTTP wrapper and process setup.

=== FILE: api_client.dfy ===
/**
 The control logic of `APIClient`: a client that keeps an HTTP session and a
 bearer token with a fixed thirty-minute lifetime, authenticates lazily,
 re-authenticates once when a GET comes back 401, retries that GET once, and
 turns every failure into an `{"error": ...}` body.

 The network is an oracle: each exchange the client may have during one call
 is answered by a field of `Network`, and every request the client sends is
 recorded, in order, in the `calls` of the run. Time is an integer count of
 seconds supplied by the caller; one call of `Get` happens at one instant.
 */
module ApiClient {
  import opened Common

  /** The assumed token lifetime, thirty minutes, in seconds. */
  const TokenLifetime: int := 30 * 60

  /** A JSON value as the response decoder returns it. */
  datatype Json =
    | JNull
    | JBool(b: bool)
    | JNumber(n: real)
    | JString(s: string)
    | JArray(items: seq<Json>)
    | JObject(fields: map<string, Json>)

  /** The `{"error": message}` body every failure is reported as. */
  function ErrorBody(message: string): Json {
    JObject(map["error" := JString(message)])
  }

  /** The client's state: configuration, token, expiry and whether a session is open. */
  datatype Client = Client(
    baseUrl: string,
    username: string,
    password: string,
    token: Option<string>,
    expiry: Option<int>,
    session: bool)

  /** A request the client sends. */
  datatype Call =
    | PostToken(url: string, username: string, password: string)
    | HttpGet(url: string, authorization: string)

  /**
   The answer to a token request: a status and, when the body is JSON holding
   `access_token`, that token; or an exception while posting.
   */
  datatype AuthReply = AuthAnswered(status: int, accessToken: Option<string>) | AuthRaised(message: string)

  /**
   A GET response: its status, its body read as text, and its body decoded as
   JSON. Reading either can raise (an undecodable body, a broken stream), so
   each is the value read or the message of what was raised.
   */
  datatype HttpResponse = HttpResponse(status: int, text: Result<string, string>, json: Result<Json, string>)

  /** The answer to a GET: a response, or a transport exception. */
  datatype GetReply = Answered(response: HttpResponse) | Raised(message: string)

  /**
   The answers to the exchanges one `Get` may have, in the order they can
   happen: authentication when the session is opened, authentication because
   the token is not valid, the first GET, re-authentication after a 401, and
   the retried GET.
   */
  datatype Network = Network(
    sessionAuth: AuthReply,
    tokenAuth: AuthReply,
    first: GetReply,
    reauth: AuthReply,
    retry: GetReply)

  /** The outcome of `authenticate`: the new state, its boolean result and the requests sent. */
  datatype AuthRun = AuthRun(client: Client, ok: bool, calls: seq<Call>)

  /** The outcome of `get`: the new state, the returned body and the requests sent. */
  datatype GetRun = GetRun(client: Client, body: Json, calls: seq<Call>)

  /** A request to `get` at a given instant, with the answers the network gives it. */
  datatype Request = Request(endpoint: string, net: Network, now: int)

  // ---------------------------------------------------------------------------
  // Construction and session

  /** Python's `s.rstrip('/')`. */
  function StripTrailingSlashes(s: string): (r: string)
    ensures |r| <= |s| && r == s[..|r|]
    ensures |r| == 0 || r[|r| - 1] != '/'
    ensures forall i :: |r| <= i < |s| ==> s[i] == '/'
    decreases |s|
  {
    if |s| > 0 && s[|s| - 1] == '/' then StripTrailingSlashes(s[..|s| - 1]) else s
  }

  /** Stripping twice is stripping once. */
  lemma StripTrailingSlashesIdempotent(s: string)
    ensures StripTrailingSlashes(StripTrailingSlashes(s)) == StripTrailingSlashes(s)
  {
  }

  /**
   A new client: the base URL without its trailing slashes (it differs from the
   given one only by them), no token, no expiry, no session.
   */
  function New(baseUrl: string, username: string, password: string): (c: Client)
    ensures |c.baseUrl| == 0 || c.baseUrl[|c.baseUrl| - 1] != '/'
    ensures c.baseUrl <= baseUrl
    ensures forall i :: |c.baseUrl| <= i < |baseUrl| ==> baseUrl[i] == '/'
    ensures c.username == username && c.password == password
    ensures c.token == None && c.expiry == None && !c.session
  {
    Client(StripTrailingSlashes(baseUrl), username, password, None, None, false)
  }

  /** `close`: the session is released; nothing else changes. */
  function Close(c: Client): (r: Client)
    ensures !r.session
    ensures r.baseUrl == c.baseUrl && r.username == c.username && r.password == c.password
    ensures r.token == c.token && r.expiry == c.expiry
  {
    if c.session then c.(session := false) else c
  }

  // ---------------------------------------------------------------------------
  // Token

  /**
   `is_token_valid`: a token is held and is not the empty string (which Python
   treats as false), an expiry is held, and `now` is before it.
   */
  predicate IsTokenValid(c: Client, now: int) {
    c.token.Some? && |c.token.value| > 0 && c.expiry.Some? && now < c.expiry.value
  }

  /** The token endpoint answered 200 with a JSON body holding `access_token`. */
  predicate Accepted(reply: AuthReply) {
    reply.AuthAnswered? && reply.status == 200 && reply.accessToken.Some?
  }

  function TokenUrl(c: Client): string {
    c.baseUrl + "/auth/token"
  }

  /**
   `authenticate`: posts the credentials to the token endpoint when a session
   is open (without one the post raises, which the method swallows). It
   succeeds exactly when the answer is a 200 carrying a token; then the token
   is stored and expires `TokenLifetime` seconds from now. Otherwise the
   state is left as it was, the old token included.
   */
  function Authenticate(c: Client, reply: AuthReply, now: int): (r: AuthRun)
    ensures r.ok <==> c.session && Accepted(reply)
    ensures r.ok ==> r.client == c.(token := reply.accessToken, expiry := Some(now + TokenLifetime))
    ensures !r.ok ==> r.client == c
    ensures r.calls == if c.session then [PostToken(TokenUrl(c), c.username, c.password)] else []
  {
    if !c.session then AuthRun(c, false, [])
    else
      var calls := [PostToken(TokenUrl(c), c.username, c.password)];
      match reply
      case AuthRaised(_) => AuthRun(c, false, calls)
      case AuthAnswered(status, accessToken) =>
        if status != 200 then AuthRun(c, false, calls)
        else
          match accessToken
          case None => AuthRun(c, false, calls)
          case Some(t) => AuthRun(c.(token := Some(t), expiry := Some(now + TokenLifetime)), true, calls)
  }

  /**
   A successful authentication at `now` makes the token valid exactly until
   `TokenLifetime` seconds later (provided the server's token is not empty);
   a failed one leaves validity as it was at every instant.
   */
  lemma TokenValidityWindow(c: Client, reply: AuthReply, now: int, later: int)
    ensures var r := Authenticate(c, reply, now);
      r.ok && |reply.accessToken.value| > 0 ==> (IsTokenValid(r.client, later) <==> later < now + TokenLifetime)
    ensures var r := Authenticate(c, reply, now);
      !r.ok ==> (IsTokenValid(r.client, later) <==> IsTokenValid(c, later))
  {
  }

  /**
   `ensure_session`: when no session is open, opens one and authenticates
   (ignoring whether that worked); otherwise does nothing.
   */
  function EnsureSession(c: Client, reply: AuthReply, now: int): (r: AuthRun)
    ensures r.client.session
    ensures c.session ==> r.client == c && r.calls == []
    ensures !c.session ==> r.calls == [PostToken(TokenUrl(c), c.username, c.password)]
    ensures !c.session && Accepted(reply) ==>
      r.client == c.(session := true, token := reply.accessToken, expiry := Some(now + TokenLifetime))
    ensures !c.session && !Accepted(reply) ==> r.client == c.(session := true)
  {
    if c.session then AuthRun(c, true, [])
    else
      var started := Authenticate(c.(session := true), reply, now);
      AuthRun(started.client, true, started.calls)
  }

  /**
   After `close`, the next `get` opens a new session and asks for a token
   before anything else, even while the old token is still valid.
   */
  lemma CloseForcesAuthentication(c: Client, endpoint: string, net: Network, now: int)
    ensures var r := Get(Close(c), endpoint, net, now);
      |r.calls| > 0 && r.calls[0] == PostToken(TokenUrl(c), c.username, c.password)
  {
    var p := Prepare(Close(c), net, now);
    var r := Get(Close(c), endpoint, net, now);
    assert r.calls[..|p.calls|] == p.calls;
  }

  // ---------------------------------------------------------------------------
  // Responses

  /**
   `_handle_response`: a 200 gives the decoded JSON body; any other status
   gives the single-key body `{"error": "HTTP <status>: <text>"}`, whose status
   reads back as the response's. Reading the body can raise, and the exception
   propagates as `Err`.
   */
  function HandleResponse(resp: HttpResponse): (r: Result<Json, string>)
    ensures resp.status == 200 ==> r == resp.json
    ensures resp.status != 200 && resp.text.Err? ==> r == Err(resp.text.error)
    ensures resp.status != 200 && resp.text.Ok? ==>
      r.Ok? && r.value.JObject? && r.value.fields.Keys == {"error"} && r.value.fields["error"].JString?
    ensures resp.status != 200 && resp.text.Ok? ==>
      exists code :: IsDecimalOf(code, resp.status) && r == Ok(ErrorBody("HTTP " + code + ": " + resp.text.value))
  {
    if resp.status == 200 then resp.json
    else
      match resp.text
      case Err(message) => Err(message)
      case Ok(text) =>
        IntToStringReadsBack(resp.status);
        Ok(ErrorBody("HTTP " + IntToString(resp.status) + ": " + text))
  }

  /** The `except` around the request: an exception becomes `{"error": str(e)}`. */
  function Settle(r: Result<Json, string>): Json {
    match r
    case Ok(body) => body
    case Err(message) => ErrorBody(message)
  }

  /** The outcome of one GET answer: a transport exception or the handled response. */
  function Outcome(reply: GetReply): Json {
    match reply
    case Raised(message) => ErrorBody(message)
    case Answered(resp) => Settle(HandleResponse(resp))
  }

  function Bearer(token: Option<string>): string {
    "Bearer " + match token
                case Some(t) => t
                case None => "None"
  }

  // ---------------------------------------------------------------------------
  // get

  /**
   The first half of `get`: make sure a session is open, then authenticate
   if the token is not valid. `ok` tells whether the GET may be sent.
   */
  function Prepare(c: Client, net: Network, now: int): (r: AuthRun)
    ensures r.client.session
    ensures var started := EnsureSession(c, net.sessionAuth, now).client;
      r.ok <==> IsTokenValid(started, now) || Accepted(net.tokenAuth)
    ensures c.session && IsTokenValid(c, now) ==> r.ok && r.client == c && r.calls == []
    ensures CountGets(r.calls) == 0 && CountPosts(r.calls) <= 2
  {
    var started := EnsureSession(c, net.sessionAuth, now);
    if IsTokenValid(started.client, now) then AuthRun(started.client, true, started.calls)
    else
      var auth := Authenticate(started.client, net.tokenAuth, now);
      CountAppend(started.calls, auth.calls);
      AuthRun(auth.client, auth.ok, started.calls + auth.calls)
  }

  /** The URL `get` requests. */
  function Url(c: Client, endpoint: string): string {
    c.baseUrl + endpoint
  }

  /** `get` from the point where a usable token is held. */
  function Send(c: Client, endpoint: string, net: Network, now: int): (r: GetRun)
    requires c.session
    ensures r.client.session
    ensures 1 <= CountGets(r.calls) <= 2 && CountPosts(r.calls) <= 1
    ensures CountGets(r.calls) == 2 <==>
      net.first.Answered? && net.first.response.status == 401 && Accepted(net.reauth)
  {
    var url := Url(c, endpoint);
    var firstCall := HttpGet(url, Bearer(c.token));
    match net.first
    case Raised(message) => GetRun(c, ErrorBody(message), [firstCall])
    case Answered(resp) =>
      if resp.status == 401 then
        var re := Authenticate(c, net.reauth, now);
        if re.ok then
          var retryCall := HttpGet(url, Bearer(re.client.token));
          GetRun(re.client, Outcome(net.retry), [firstCall] + re.calls + [retryCall])
        else
          GetRun(re.client, ErrorBody("Re-authentication failed"), [firstCall] + re.calls)
      else
        GetRun(c, Settle(HandleResponse(resp)), [firstCall])
  }

  /**
   `get`: at most two GETs and at most three token requests per call, so the
   client never loops; the session is open afterwards and the configuration
   is unchanged. No GET is sent when no usable token could be obtained.
   */
  function Get(c: Client, endpoint: string, net: Network, now: int): (r: GetRun)
    ensures r.client.session
    ensures r.client.baseUrl == c.baseUrl && r.client.username == c.username && r.client.password == c.password
    ensures CountGets(r.calls) <= 2 && CountPosts(r.calls) <= 3
    ensures CountGets(r.calls) == 0 <==> !Prepare(c, net, now).ok
    ensures !Prepare(c, net, now).ok ==> r.body == ErrorBody("Authentication failed")
  {
    var prepared := Prepare(c, net, now);
    if !prepared.ok then
      GetRun(prepared.client, ErrorBody("Authentication failed"), prepared.calls)
    else
      var sent := Send(prepared.client, endpoint, net, now);
      CountAppend(prepared.calls, sent.calls);
      GetRun(sent.client, sent.body, prepared.calls + sent.calls)
  }

  // ---------------------------------------------------------------------------
  // Counting requests

  function CountGets(calls: seq<Call>): nat
    decreases |calls|
  {
    if |calls| == 0 then 0
    else CountGets(calls[..|calls| - 1]) + if calls[|calls| - 1].HttpGet? then 1 else 0
  }

  function CountPosts(calls: seq<Call>): nat
    decreases |calls|
  {
    if |calls| == 0 then 0
    else CountPosts(calls[..|calls| - 1]) + if calls[|calls| - 1].PostToken? then 1 else 0
  }

  lemma {:induction false} CountAppend(a: seq<Call>, b: seq<Call>)
    ensures CountGets(a + b) == CountGets(a) + CountGets(b)
    ensures CountPosts(a + b) == CountPosts(a) + CountPosts(b)
    decreases |b|
  {
    if |b| == 0 {
      assert a + b == a;
    } else {
      assert (a + b)[..|a + b| - 1] == a + b[..|b| - 1];
      CountAppend(a, b[..|b| - 1]);
    }
  }

  // ---------------------------------------------------------------------------
  // The retry policy of get

  predicate Unauthorized(reply: GetReply) {
    reply.Answered? && reply.response.status == 401
  }

  /**
   When the token is not valid after the session check and authentication
   fails, `get` reports "Authentication failed" and sends no GET.
   */
  lemma GetFailsWithoutToken(c: Client, endpoint: string, net: Network, now: int)
    requires !IsTokenValid(EnsureSession(c, net.sessionAuth, now).client, now)
    requires !Accepted(net.tokenAuth)
    ensures Get(c, endpoint, net, now).body == ErrorBody("Authentication failed")
    ensures CountGets(Get(c, endpoint, net, now).calls) == 0
  {
  }

  /** With an open session and a valid token, the first request `get` sends is the GET itself. */
  lemma GetWithValidTokenSkipsAuthentication(c: Client, endpoint: string, net: Network, now: int)
    requires c.session && IsTokenValid(c, now)
    ensures var r := Get(c, endpoint, net, now);
      |r.calls| > 0 && r.calls[0] == HttpGet(Url(c, endpoint), Bearer(c.token))
  {
  }

  /**
   A first answer other than 401 is the only GET: a transport exception gives
   `{"error": str(e)}`, a response goes through `_handle_response`, and the
   state is the one the token check left.
   */
  lemma GetHandlesFirstAnswer(c: Client, endpoint: string, net: Network, now: int)
    requires Prepare(c, net, now).ok
    requires !Unauthorized(net.first)
    ensures var p := Prepare(c, net, now);
      var r := Get(c, endpoint, net, now);
      && r.calls == p.calls + [HttpGet(Url(c, endpoint), Bearer(p.client.token))]
      && r.body == Outcome(net.first)
      && r.client == p.client
  {
  }

  /**
   A 401 is followed by exactly one token request. When it is accepted,
   exactly one retry is sent, with the new token, and its answer is the result.
   */
  lemma RetriesOnceAfterUnauthorized(c: Client, endpoint: string, net: Network, now: int)
    requires Prepare(c, net, now).ok
    requires Unauthorized(net.first) && Accepted(net.reauth)
    ensures var p := Prepare(c, net, now);
      var r := Get(c, endpoint, net, now);
      && r.calls == p.calls + [HttpGet(Url(c, endpoint), Bearer(p.client.token)),
                               PostToken(TokenUrl(c), c.username, c.password),
                               HttpGet(Url(c, endpoint), Bearer(net.reauth.accessToken))]
      && r.body == Outcome(net.retry)
  {
  }

  /**
   A 401 whose single re-authentication fails gives "Re-authentication
   failed", and the GET is not retried.
   */
  lemma NoRetryWhenReauthenticationFails(c: Client, endpoint: string, net: Network, now: int)
    requires Prepare(c, net, now).ok
    requires Unauthorized(net.first) && !Accepted(net.reauth)
    ensures var p := Prepare(c, net, now);
      var r := Get(c, endpoint, net, now);
      && r.calls == p.calls + [HttpGet(Url(c, endpoint), Bearer(p.client.token)),
                               PostToken(TokenUrl(c), c.username, c.password)]
      && r.body == ErrorBody("Re-authentication failed")
  {
  }

  /** A 401 that reaches `_handle_response` is reported as `"HTTP 401: <text>"`. */
  lemma UnauthorizedMessage(resp: HttpResponse)
    requires resp.status == 401
    ensures resp.text.Ok? ==> HandleResponse(resp) == Ok(ErrorBody("HTTP 401: " + resp.text.value))
    ensures resp.text.Err? ==> HandleResponse(resp) == Err(resp.text.error)
  {
    if resp.text.Ok? {
      assert IntToString(401) == NatToString(40) + "1" == "401";
      assert "HTTP " + "401" + ": " + resp.text.value == "HTTP 401: " + resp.text.value;
    }
  }

  /** A second 401 is reported as an HTTP error, not answered with a third attempt. */
  lemma SecondUnauthorizedIsReported(c: Client, endpoint: string, net: Network, now: int)
    requires Prepare(c, net, now).ok
    requires Unauthorized(net.first) && Accepted(net.reauth) && Unauthorized(net.retry)
    ensures var r := Get(c, endpoint, net, now);
      && (net.retry.response.text.Ok? ==> r.body == ErrorBody("HTTP 401: " + net.retry.response.text.value))
      && (net.retry.response.text.Err? ==> r.body == ErrorBody(net.retry.response.text.error))
      && CountGets(r.calls) == 2
  {
    var p := Prepare(c, net, now);
    var r := Get(c, endpoint, net, now);
    RetriesOnceAfterUnauthorized(c, endpoint, net, now);
    UnauthorizedMessage(net.retry.response);
    CountAppend(p.calls, r.calls[|p.calls|..]);
  }

  // ---------------------------------------------------------------------------
  // Several calls

  /** The outcome of a series of `get` calls: the final state, the bodies, all requests sent. */
  datatype Series = Series(client: Client, bodies: seq<Json>, calls: seq<Call>)

  function GetAll(c: Client, requests: seq<Request>): (r: Series)
    ensures |r.bodies| == |requests|
    decreases |requests|
  {
    if |requests| == 0 then Series(c, [], [])
    else
      var first := Get(c, requests[0].endpoint, requests[0].net, requests[0].now);
      var rest := GetAll(first.client, requests[1..]);
      Series(rest.client, [first.body] + rest.bodies, first.calls + rest.calls)
  }

  /**
   While the token stays valid and no GET is answered 401, a series of `get`
   calls sends one GET each and never asks for a token.
   */
  lemma {:induction false} NoAuthenticationWhileTokenValid(c: Client, requests: seq<Request>)
    requires c.session
    requires forall k :: 0 <= k < |requests| ==> IsTokenValid(c, requests[k].now)
    requires forall k :: 0 <= k < |requests| ==> !Unauthorized(requests[k].net.first)
    ensures GetAll(c, requests).client == c
    ensures CountPosts(GetAll(c, requests).calls) == 0
    ensures CountGets(GetAll(c, requests).calls) == |requests|
    decreases |requests|
  {
    if |requests| > 0 {
      var q := requests[0];
      var first := Get(c, q.endpoint, q.net, q.now);
      GetHandlesFirstAnswer(c, q.endpoint, q.net, q.now);
      assert first.client == c;
      assert first.calls == [HttpGet(Url(c, q.endpoint), Bearer(c.token))];
      NoAuthenticationWhileTokenValid(c, requests[1..]);
      CountAppend(first.calls, GetAll(c, requests[1..]).calls);
    }
  }

  /**
   A client without a session whose first authentication succeeds asks for a
   token exactly once during a series of `get` calls that all fall within the
   token's lifetime and meet no 401.
   */
  lemma {:induction false} AuthenticatesOncePerLifetime(c: Client, requests: seq<Request>)
    requires !c.session && |requests| > 0
    requires Accepted(requests[0].net.sessionAuth) && |requests[0].net.sessionAuth.accessToken.value| > 0
    requires forall k :: 0 <= k < |requests| ==> requests[0].now <= requests[k].now < requests[0].now + TokenLifetime
    requires forall k :: 0 <= k < |requests| ==> !Unauthorized(requests[k].net.first)
    ensures CountPosts(GetAll(c, requests).calls) == 1
    ensures CountGets(GetAll(c, requests).calls) == |requests|
  {
    var q := requests[0];
    var first := Get(c, q.endpoint, q.net, q.now);
    var authed := EnsureSession(c, q.net.sessionAuth, q.now).client;
    assert IsTokenValid(authed, q.now);
    var p := Prepare(c, q.net, q.now);
    assert p.client == authed;
    assert p.calls == [PostToken(TokenUrl(c), c.username, c.password)];
    GetHandlesFirstAnswer(c, q.endpoint, q.net, q.now);
    assert first.client == authed;
    CountAppend(p.calls, [HttpGet(Url(c, q.endpoint), Bearer(authed.token))]);
    assert CountPosts(first.calls) == 1 && CountGets(first.calls) == 1;
    forall k | 0 <= k < |requests[1..]|
      ensures IsTokenValid(authed, requests[1..][k].now)
    {
      assert requests[1..][k] == requests[k + 1];
    }
    NoAuthenticationWhileTokenValid(authed, requests[1..]);
    CountAppend(first.calls, GetAll(authed, requests[1..]).calls);
  }
}

=== FILE: chart.dfy ===
/**
 The decision skeleton of `make_chart_depth`: which inputs it rejects, how it
 orders the rows, which series the lower panel plots and which caption it
 returns. Drawing, styling and saving the image are not part of the model; the
 plan records what would be drawn.
 */
module Chart {
  import opened Common
  import Depths

  /**
   A row of a depth snapshot table: its `event_time`, as an ordered timestamp,
   and the rest of its cells, which the decisions never inspect.
   */
  datatype Row<V> = Row(eventTime: int, cells: V)

  /** A data frame: its column names and its rows. */
  datatype Frame<V> = Frame(columns: set<string>, rows: seq<Row<V>>)

  /** Why `make_chart_depth` raised. */
  datatype ChartError =
    | EmptyFrame                  // ValueError "DataFrame is empty"
    | MissingEventTime            // ValueError about the 'event_time' column
    | MissingColumn(name: string) // KeyError from indexing a column that is absent
    | Depth(cause: Depths.DepthError) // ValueError from get_depths

  /** What the lower panel plots. */
  datatype Panel =
    | DepthLines(bid: string, ask: string)     // raw bid and ask volume
    | RatioLine(bid: string, ask: string)      // bid volume / ask volume
    | DiffPercentLine(bid: string, ask: string) // (bid - ask) / (bid + ask) * 100
    | NoLine                                    // the panel stays empty

  /** What a successful call produces, apart from the image file. */
  datatype ChartPlan<V> = ChartPlan(rows: seq<Row<V>>, description: string, panel: Panel)

  /** pandas' `df.empty`: no rows or no columns. */
  predicate IsEmpty<V>(df: Frame<V>) {
    |df.rows| == 0 || df.columns == {}
  }

  ghost predicate SortedByTime<V>(rows: seq<Row<V>>) {
    forall i, j :: 0 <= i < j < |rows| ==> rows[i].eventTime <= rows[j].eventTime
  }

  // ---------------------------------------------------------------------------
  // sort_values('event_time')

  function Insert<V>(row: Row<V>, rows: seq<Row<V>>): (r: seq<Row<V>>)
    ensures multiset(r) == multiset(rows) + multiset{row}
    ensures |r| == |rows| + 1
    ensures r[0] == row || (|rows| > 0 && r[0] == rows[0])
    ensures SortedByTime(rows) ==> SortedByTime(r)
    decreases |rows|
  {
    if |rows| == 0 then [row]
    else if row.eventTime <= rows[0].eventTime then [row] + rows
    else
      assert rows == [rows[0]] + rows[1..];
      assert SortedByTime(rows) ==> SortedByTime(rows[1..]);
      [rows[0]] + Insert(row, rows[1..])
  }

  /**
   The rows ordered by non-decreasing `event_time`, as a permutation of the
   input. Ties are not promised to keep their order: pandas' default sort is
   not a stable one.
   */
  function SortByEventTime<V>(rows: seq<Row<V>>): (r: seq<Row<V>>)
    ensures SortedByTime(r)
    ensures multiset(r) == multiset(rows)
    decreases |rows|
  {
    if |rows| == 0 then []
    else
      assert rows == [rows[0]] + rows[1..];
      Insert(rows[0], SortByEventTime(rows[1..]))
  }

  // ---------------------------------------------------------------------------
  // make_chart_depth

  /** The caption for a view variant of a band. */
  function Description(pct: int, variant: int): (d: string)
    ensures variant !in {0, 1, 2} <==> d == ""
    ensures variant in {0, 1, 2} ==> "Depth (" + IntToString(pct) + "%" <= d
  {
    var p := IntToString(pct);
    if variant == 0 then "Depth (" + p + "% Bid/Ask)"
    else if variant == 1 then "Depth (" + p + "% K Bid/Ask)"
    else if variant == 2 then "Depth (" + p + "% diff % Bids-Asks)"
    else ""
  }

  /** The lower panel for a variant, given the band's columns and the columns present. */
  function PanelFor(variant: int, bid: string, ask: string, present: set<string>): Panel {
    if variant == 0 then DepthLines(bid, ask)
    else if variant == 1 && bid in present && ask in present then RatioLine(bid, ask)
    else if variant == 2 && bid in present && ask in present then DiffPercentLine(bid, ask)
    else NoLine
  }

  /** The columns every chart needs, whatever the variant. */
  predicate HasPriceColumns<V>(df: Frame<V>) {
    "event_time" in df.columns && "best_bid" in df.columns && "best_ask" in df.columns
  }

  /**
   Plans the depth chart of band `pct`, view `variant`, for `df`.

   It fails exactly when the frame is empty, lacks a price or time column, the
   band is unknown, or the raw-depth view (variant 0) lacks a depth column;
   the first failing check in the source's order decides the error. On
   success the rows are the frame's rows ordered by time, the caption depends
   only on band and variant, and the ratio and difference views plot nothing
   when the depth columns are missing.
   */
  function MakeChartDepth<V>(df: Frame<V>, pct: int, variant: int): (r: Result<ChartPlan<V>, ChartError>)
    ensures r.Ok? <==>
      && !IsEmpty(df)
      && HasPriceColumns(df)
      && pct in Depths.Bands
      && (variant == 0 ==> Depths.ColumnName(pct, "bid") in df.columns && Depths.ColumnName(pct, "ask") in df.columns)
    ensures r == Err(EmptyFrame) <==> IsEmpty(df)
    ensures r == Err(MissingEventTime) <==> !IsEmpty(df) && "event_time" !in df.columns
    ensures r == Err(MissingColumn("best_bid")) <==> !IsEmpty(df) && "event_time" in df.columns && "best_bid" !in df.columns
    ensures r == Err(MissingColumn("best_ask")) <==>
      !IsEmpty(df) && "event_time" in df.columns && "best_bid" in df.columns && "best_ask" !in df.columns
    ensures r == Err(MissingColumn(Depths.ColumnName(pct, "bid"))) <==>
      && !IsEmpty(df) && HasPriceColumns(df) && pct in Depths.Bands && variant == 0
      && Depths.ColumnName(pct, "bid") !in df.columns
    ensures r == Err(MissingColumn(Depths.ColumnName(pct, "ask"))) <==>
      && !IsEmpty(df) && HasPriceColumns(df) && pct in Depths.Bands && variant == 0
      && Depths.ColumnName(pct, "bid") in df.columns && Depths.ColumnName(pct, "ask") !in df.columns
    ensures r == Err(Depth(Depths.InvalidDepth(pct))) <==> !IsEmpty(df) && HasPriceColumns(df) && pct !in Depths.Bands
    ensures r.Ok? ==> SortedByTime(r.value.rows) && multiset(r.value.rows) == multiset(df.rows)
    ensures r.Ok? ==> r.value.description == Description(pct, variant)
    ensures r.Ok? ==> r.value.panel == PanelFor(variant, Depths.ColumnName(pct, "bid"), Depths.ColumnName(pct, "ask"), df.columns)
  {
    if IsEmpty(df) then Err(EmptyFrame)
    else if "event_time" !in df.columns then Err(MissingEventTime)
    else
      var sorted := SortByEventTime(df.rows);
      if "best_bid" !in df.columns then Err(MissingColumn("best_bid"))
      else if "best_ask" !in df.columns then Err(MissingColumn("best_ask"))
      else
        match Depths.GetDepths(pct)
        case Err(cause) => Err(Depth(cause))
        case Ok(depthColumns) =>
          var bid := depthColumns[0];
          var ask := depthColumns[1];
          if variant == 0 && bid !in df.columns then Err(MissingColumn(bid))
          else if variant == 0 && ask !in df.columns then Err(MissingColumn(ask))
          else Ok(ChartPlan(sorted, Description(pct, variant), PanelFor(variant, bid, ask, df.columns)))
  }

  /**
   The caption names the chart: two different views, or two different bands,
   never share a caption.
   */
  lemma DescriptionsDistinct(p1: int, v1: int, p2: int, v2: int)
    requires p1 in Depths.Bands && p2 in Depths.Bands
    requires v1 in {0, 1, 2} && v2 in {0, 1, 2}
    requires (p1, v1) != (p2, v2)
    ensures Description(p1, v1) != Description(p2, v2)
  {
    var d1 := Description(p1, v1);
    var d2 := Description(p2, v2);
    assert IntToString(p1) == [DigitChar(p1)];
    assert IntToString(p2) == [DigitChar(p2)];
    if p1 != p2 {
      assert d1[7] == DigitChar(p1) && d2[7] == DigitChar(p2);
    }
  }
}

=== FILE: chunking.dfy ===
/**
 `split_list_into_strings`: a greedy chunker that packs the string forms of
 list items, joined by a separator, into chunks of at most `max_length`
 characters. An item too long for any chunk is cut to `max_length` characters
 when it arrives on an empty chunk, but is kept whole when a chunk is open.

 The list items are taken already converted by `str`, so the input is a
 sequence of strings.
 */
module Chunking {

  /** Python's `separator.join(xs)`. */
  function Join(xs: seq<string>, sep: string): string
    decreases |xs|
  {
    if |xs| == 0 then ""
    else if |xs| == 1 then xs[0]
    else Join(xs[..|xs| - 1], sep) + sep + xs[|xs| - 1]
  }

  /** Python's `s[:n]`, including the negative `n` that counts from the end. */
  function TakePrefix(s: string, n: int): (r: string)
    ensures |r| <= |s| && r == s[..|r|]
    ensures 0 <= n ==> |r| == if n < |s| then n else |s|
    ensures n < 0 ==> |r| == if |s| + n > 0 then |s| + n else 0
  {
    if n >= |s| then s
    else if n >= 0 then s[..n]
    else if |s| + n > 0 then s[..|s| + n]
    else ""
  }

  /**
   The loop state of the source: the chunks emitted so far, the items of the
   open chunk, and the length the source keeps for the open chunk.
   */
  datatype Chunker = Chunker(results: seq<string>, chunk: seq<string>, length: int)

  const Start: Chunker := Chunker([], [], 0)

  /** One iteration of the loop body, for the item `item`. */
  function Feed(st: Chunker, item: string, maxLength: int, sep: string): Chunker {
    var newLength := if |st.chunk| > 0 then st.length + |sep| + |item| else |item|;
    if newLength > maxLength then
      if |st.chunk| > 0 then
        Chunker(st.results + [Join(st.chunk, sep)], [item], |item|)
      else
        Chunker(st.results + [TakePrefix(item, maxLength)], [], 0)
    else
      Chunker(st.results, st.chunk + [item], newLength)
  }

  /** The loop over all items, left to right. */
  function FeedAll(st: Chunker, items: seq<string>, maxLength: int, sep: string): Chunker
    decreases |items|
  {
    if |items| == 0 then st
    else FeedAll(Feed(st, items[0], maxLength, sep), items[1..], maxLength, sep)
  }

  /** What the source returns after the loop: the results plus the open chunk, if any. */
  function Flush(st: Chunker, sep: string): seq<string> {
    st.results + if |st.chunk| > 0 then [Join(st.chunk, sep)] else []
  }

  /** Every item fits in a chunk on its own. */
  predicate AllFit(items: seq<string>, maxLength: int) {
    forall i :: 0 <= i < |items| ==> |items[i]| <= maxLength
  }

  /** No chunk is longer than `maxLength`. */
  predicate Bounded(chunks: seq<string>, maxLength: int) {
    forall j :: 0 <= j < |chunks| ==> |chunks[j]| <= maxLength
  }

  /**
   No two neighbouring chunks could have been packed as one: each chunk, the
   separator and the next chunk together exceed `maxLength`.
   */
  predicate PackedGreedily(chunks: seq<string>, maxLength: int, sep: string) {
    forall j :: 0 <= j < |chunks| - 1 ==> |chunks[j]| + |sep| + |chunks[j + 1]| > maxLength
  }

  /**
   The chunks of `items`. An empty list gives no chunks; a non-empty one gives
   at least one and at most one per item. When every item fits, every chunk
   fits too, and joining the chunks gives back all items joined, in order.
   */
  function SplitListIntoStrings(items: seq<string>, maxLength: int, sep: string): (r: seq<string>)
    ensures |items| == 0 ==> r == []
    ensures |items| > 0 ==> 1 <= |r| <= |items|
    ensures AllFit(items, maxLength) ==> Bounded(r, maxLength) && Join(r, sep) == Join(items, sep)
  {
    if |items| == 0 then []
    else
      FeedAllCount(Start, items, maxLength, sep);
      if AllFit(items, maxLength) then
        assert [] + items == items;
        FeedAllKeepsText(Start, [], items, maxLength, sep);
        Flush(FeedAll(Start, items, maxLength, sep), sep)
      else
        Flush(FeedAll(Start, items, maxLength, sep), sep)
  }

  // ---------------------------------------------------------------------------
  // Join

  lemma JoinSnoc(xs: seq<string>, x: string, sep: string)
    ensures Join(xs + [x], sep) == if |xs| == 0 then x else Join(xs, sep) + sep + x
  {
  }

  /** Extending the last joined element extends the joined string. */
  lemma JoinExtendLast(xs: seq<string>, y: string, z: string, sep: string)
    ensures Join(xs + [y + z], sep) == Join(xs + [y], sep) + z
  {
  }

  // ---------------------------------------------------------------------------
  // Counting chunks

  /** Chunks already emitted or still open. */
  function Pending(st: Chunker): nat {
    |st.results| + if |st.chunk| > 0 then 1 else 0
  }

  /** Each item adds at most one chunk, and after any item there is at least one. */
  lemma {:induction false} FeedAllCount(st: Chunker, items: seq<string>, maxLength: int, sep: string)
    ensures Pending(st) <= Pending(FeedAll(st, items, maxLength, sep)) <= Pending(st) + |items|
    ensures |items| > 0 ==> 1 <= Pending(FeedAll(st, items, maxLength, sep))
    ensures |Flush(FeedAll(st, items, maxLength, sep), sep)| == Pending(FeedAll(st, items, maxLength, sep))
    decreases |items|
  {
    if |items| > 0 {
      var next := Feed(st, items[0], maxLength, sep);
      assert Pending(st) <= Pending(next) <= Pending(st) + 1;
      assert 1 <= Pending(next);
      FeedAllCount(next, items[1..], maxLength, sep);
    }
  }

  // ---------------------------------------------------------------------------
  // Nothing lost when every item fits

  /**
   The loop invariant when every item seen so far fits: the kept length is the
   open chunk's length, every chunk fits, and the chunks joined are the items
   seen so far joined.
   */
  ghost predicate Keeps(st: Chunker, seen: seq<string>, maxLength: int, sep: string) {
    && st.length == |Join(st.chunk, sep)|
    && Bounded(st.results, maxLength)
    && |Join(st.chunk, sep)| <= maxLength
    && (|Flush(st, sep)| == 0 <==> |seen| == 0)
    && Join(Flush(st, sep), sep) == Join(seen, sep)
  }

  lemma FeedKeepsText(st: Chunker, seen: seq<string>, item: string, maxLength: int, sep: string)
    requires Keeps(st, seen, maxLength, sep)
    requires |item| <= maxLength
    ensures Keeps(Feed(st, item, maxLength, sep), seen + [item], maxLength, sep)
  {
    var next := Feed(st, item, maxLength, sep);
    JoinSnoc(seen, item, sep);
    JoinSnoc(st.chunk, item, sep);
    if |st.chunk| > 0 {
      var joined := Join(st.chunk, sep);
      if st.length + |sep| + |item| > maxLength {
        assert Flush(next, sep) == Flush(st, sep) + [item];
        JoinSnoc(Flush(st, sep), item, sep);
      } else {
        assert Flush(st, sep) == st.results + [joined];
        assert Join(st.chunk + [item], sep) == joined + (sep + item);
        assert Flush(next, sep) == st.results + [joined + (sep + item)];
        JoinExtendLast(st.results, joined, sep + item, sep);
      }
    } else {
      assert Flush(next, sep) == Flush(st, sep) + [item];
      JoinSnoc(Flush(st, sep), item, sep);
    }
  }

  lemma {:induction false} FeedAllKeepsText(st: Chunker, seen: seq<string>, items: seq<string>, maxLength: int, sep: string)
    requires Keeps(st, seen, maxLength, sep)
    requires AllFit(items, maxLength)
    ensures Keeps(FeedAll(st, items, maxLength, sep), seen + items, maxLength, sep)
    ensures Bounded(Flush(FeedAll(st, items, maxLength, sep), sep), maxLength)
    decreases |items|
  {
    if |items| == 0 {
      assert seen + items == seen;
    } else {
      FeedKeepsText(st, seen, items[0], maxLength, sep);
      assert seen + items == (seen + [items[0]]) + items[1..];
      FeedAllKeepsText(Feed(st, items[0], maxLength, sep), seen + [items[0]], items[1..], maxLength, sep);
    }
  }

  // ---------------------------------------------------------------------------
  // Greedy packing when every item fits

  /** A joined list is at least as long as its first element. */
  lemma {:induction false} JoinCoversFirst(xs: seq<string>, sep: string)
    requires |xs| > 0
    ensures |Join(xs, sep)| >= |xs[0]|
    decreases |xs|
  {
    if |xs| > 1 {
      JoinCoversFirst(xs[..|xs| - 1], sep);
    }
  }

  /**
   The loop invariant of greedy packing: the kept length is the open chunk's
   length, the emitted chunks are packed greedily, and once a chunk has been
   emitted a chunk is open whose first item did not fit after the last one.
   */
  ghost predicate Greedy(st: Chunker, maxLength: int, sep: string) {
    && st.length == |Join(st.chunk, sep)|
    && PackedGreedily(st.results, maxLength, sep)
    && (|st.results| > 0 ==>
          |st.chunk| > 0 && |st.results[|st.results| - 1]| + |sep| + |st.chunk[0]| > maxLength)
  }

  lemma FeedGreedy(st: Chunker, item: string, maxLength: int, sep: string)
    requires Greedy(st, maxLength, sep)
    requires |item| <= maxLength
    ensures Greedy(Feed(st, item, maxLength, sep), maxLength, sep)
  {
    var next := Feed(st, item, maxLength, sep);
    JoinSnoc(st.chunk, item, sep);
    if |st.chunk| > 0 {
      JoinCoversFirst(st.chunk, sep);
      if st.length + |sep| + |item| > maxLength {
        assert next.results == st.results + [Join(st.chunk, sep)];
        assert Join([item], sep) == item;
      } else {
        assert next.chunk[0] == st.chunk[0];
      }
    }
  }

  lemma {:induction false} FeedAllGreedy(st: Chunker, items: seq<string>, maxLength: int, sep: string)
    requires Greedy(st, maxLength, sep)
    requires AllFit(items, maxLength)
    ensures Greedy(FeedAll(st, items, maxLength, sep), maxLength, sep)
    decreases |items|
  {
    if |items| > 0 {
      FeedGreedy(st, items[0], maxLength, sep);
      FeedAllGreedy(Feed(st, items[0], maxLength, sep), items[1..], maxLength, sep);
    }
  }

  lemma FlushGreedy(st: Chunker, maxLength: int, sep: string)
    requires Greedy(st, maxLength, sep)
    ensures PackedGreedily(Flush(st, sep), maxLength, sep)
  {
    if |st.chunk| > 0 {
      JoinCoversFirst(st.chunk, sep);
    }
  }

  /**
   When every item fits the packing is greedy: no two neighbouring chunks
   would fit together in one.
   */
  lemma SplitPacksGreedily(items: seq<string>, maxLength: int, sep: string)
    requires AllFit(items, maxLength)
    ensures PackedGreedily(SplitListIntoStrings(items, maxLength, sep), maxLength, sep)
  {
    if |items| > 0 {
      FeedAllGreedy(Start, items, maxLength, sep);
      FlushGreedy(FeedAll(Start, items, maxLength, sep), maxLength, sep);
    }
  }

  // ---------------------------------------------------------------------------
  // Items longer than a chunk

  /** Chunks already emitted do not influence how the remaining items are packed. */
  lemma {:induction false} FeedAllIgnoresEmitted(pre: seq<string>, st: Chunker, items: seq<string>, maxLength: int, sep: string)
    ensures FeedAll(Chunker(pre + st.results, st.chunk, st.length), items, maxLength, sep)
         == var after := FeedAll(st, items, maxLength, sep);
            Chunker(pre + after.results, after.chunk, after.length)
    decreases |items|
  {
    if |items| > 0 {
      var next := Feed(st, items[0], maxLength, sep);
      assert Feed(Chunker(pre + st.results, st.chunk, st.length), items[0], maxLength, sep)
          == Chunker(pre + next.results, next.chunk, next.length);
      FeedAllIgnoresEmitted(pre, next, items[1..], maxLength, sep);
    }
  }

  lemma {:induction false} FeedAllAppend(st: Chunker, a: seq<string>, b: seq<string>, maxLength: int, sep: string)
    ensures FeedAll(st, a + b, maxLength, sep) == FeedAll(FeedAll(st, a, maxLength, sep), b, maxLength, sep)
    decreases |a|
  {
    if |a| > 0 {
      assert (a + b)[0] == a[0] && (a + b)[1..] == a[1..] + b;
      FeedAllAppend(Feed(st, a[0], maxLength, sep), a[1..], b, maxLength, sep);
    } else {
      assert a + b == b;
    }
  }

  /** While every item fits, a chunk is always open once an item has been seen. */
  lemma {:induction false} FeedAllFittingLeavesChunkOpen(st: Chunker, items: seq<string>, maxLength: int, sep: string)
    requires |items| > 0 && AllFit(items, maxLength)
    ensures |FeedAll(st, items, maxLength, sep).chunk| > 0
    decreases |items|
  {
    if |items| > 1 {
      FeedAllFittingLeavesChunkOpen(Feed(st, items[0], maxLength, sep), items[1..], maxLength, sep);
    }
  }

  /**
   An item longer than `maxLength` that arrives while no chunk is open is
   emitted alone, cut to its first `maxLength` characters (Python's
   `item[:max_length]`), and the items after it are packed as if the list
   started there.
   */
  lemma OversizedOnEmptyChunkIsCut(x: string, rest: seq<string>, maxLength: int, sep: string)
    requires |x| > maxLength
    ensures SplitListIntoStrings([x] + rest, maxLength, sep)
         == [TakePrefix(x, maxLength)] + SplitListIntoStrings(rest, maxLength, sep)
    ensures 0 <= maxLength ==> SplitListIntoStrings([x] + rest, maxLength, sep)[0] == x[..maxLength]
  {
    var cut := TakePrefix(x, maxLength);
    assert ([x] + rest)[0] == x && ([x] + rest)[1..] == rest;
    assert Feed(Start, x, maxLength, sep) == Chunker([cut] + Start.results, Start.chunk, Start.length);
    FeedAllIgnoresEmitted([cut], Start, rest, maxLength, sep);
  }

  /** The loop only appends to the chunks already emitted. */
  lemma {:induction false} FeedAllKeepsResults(st: Chunker, items: seq<string>, maxLength: int, sep: string)
    ensures st.results <= FeedAll(st, items, maxLength, sep).results
    decreases |items|
  {
    if |items| > 0 {
      var next := Feed(st, items[0], maxLength, sep);
      FeedAllKeepsResults(next, items[1..], maxLength, sep);
    }
  }

  /** The length the loop keeps for the open chunk is never negative. */
  lemma {:induction false} FeedAllLengthNonNegative(st: Chunker, items: seq<string>, maxLength: int, sep: string)
    requires st.length >= 0
    ensures FeedAll(st, items, maxLength, sep).length >= 0
    decreases |items|
  {
    if |items| > 0 {
      FeedAllLengthNonNegative(Feed(st, items[0], maxLength, sep), items[1..], maxLength, sep);
    }
  }

  /**
   An item longer than `maxLength` that arrives while a chunk is open is kept
   whole, wherever it stands in the list and whatever the open chunk holds
   (even an earlier item kept whole): it closes the open chunk, becomes a
   chunk of its own longer than `maxLength`, and the next item (if any)
   closes it in turn. The length bound therefore holds only when every item
   fits.
   */
  lemma OversizedAfterOpenChunkIsKept(items: seq<string>, x: string, rest: seq<string>, maxLength: int, sep: string)
    requires |FeedAll(Start, items, maxLength, sep).chunk| > 0
    requires |x| > maxLength
    ensures SplitListIntoStrings(items, maxLength, sep) + [x] <= SplitListIntoStrings(items + [x] + rest, maxLength, sep)
    ensures |rest| == 0 ==>
      SplitListIntoStrings(items + [x] + rest, maxLength, sep) == SplitListIntoStrings(items, maxLength, sep) + [x]
    ensures !Bounded(SplitListIntoStrings(items + [x] + rest, maxLength, sep), maxLength)
  {
    var before := SplitListIntoStrings(items, maxLength, sep);
    var open := FeedAll(Start, items, maxLength, sep);
    assert |items| > 0;
    assert before == Flush(open, sep);
    FeedAllLengthNonNegative(Start, items, maxLength, sep);
    FeedAllAppend(Start, items, [x], maxLength, sep);
    FeedAllAppend(Start, items + [x], rest, maxLength, sep);
    var kept := FeedAll(Start, items + [x], maxLength, sep);
    assert FeedAll(open, [x], maxLength, sep) == Feed(open, x, maxLength, sep);
    assert kept == Chunker(before, [x], |x|);
    var r := SplitListIntoStrings(items + [x] + rest, maxLength, sep);
    assert r == Flush(FeedAll(kept, rest, maxLength, sep), sep);
    if |rest| == 0 {
      assert r == before + [x];
    } else {
      var closed := Feed(kept, rest[0], maxLength, sep);
      assert closed.results == before + [x];
      FeedAllKeepsResults(closed, rest[1..], maxLength, sep);
    }
    assert r[|before|] == x;
  }

  /**
   A list whose items all fit leaves a chunk open, so an oversized item after
   it is kept whole.
   */
  lemma OversizedAfterFittingItemsIsKept(items: seq<string>, x: string, rest: seq<string>, maxLength: int, sep: string)
    requires |items| > 0 && AllFit(items, maxLength)
    requires |x| > maxLength
    ensures SplitListIntoStrings(items, maxLength, sep) + [x] <= SplitListIntoStrings(items + [x] + rest, maxLength, sep)
  {
    FeedAllFittingLeavesChunkOpen(Start, items, maxLength, sep);
    OversizedAfterOpenChunkIsKept(items, x, rest, maxLength, sep);
  }

  /** Two oversized items after an open chunk are both kept whole, as in `["a", "XXXXX", "YYYYY"]` with limit 3. */
  lemma OversizedAfterOversizedIsKept()
    ensures SplitListIntoStrings(["a", "XXXXX", "YYYYY"], 3, ", ") == ["a", "XXXXX", "YYYYY"]
  {
  }
}

=== FILE: common.dfy ===
/**
 Shared vocabulary of the model: optional values, results that carry the
 error a Python `raise` would have produced, and the decimal rendering that
 f-strings apply to integers.
 */
module Common {

  /** A value that may be absent (Python's `None`). */
  datatype Option<+T> = None | Some(value: T)

  /** The outcome of an operation that may raise: `Err` carries what was raised. */
  datatype Result<+T, +E> = Ok(value: T) | Err(error: E)

  predicate IsDigit(c: char) {
    '0' <= c <= '9'
  }

  function DigitChar(d: nat): (c: char)
    requires d < 10
    ensures IsDigit(c)
    ensures c as int - '0' as int == d
  {
    "0123456789"[d]
  }

  /** Decimal digits of `n`, most significant first, without leading zeros. */
  function NatToString(n: nat): (s: string)
    ensures 1 <= |s|
    ensures forall i :: 0 <= i < |s| ==> IsDigit(s[i])
    ensures n > 0 ==> s[0] != '0'
    decreases n
  {
    if n < 10 then [DigitChar(n)] else NatToString(n / 10) + [DigitChar(n % 10)]
  }

  /** Value of a string of decimal digits. */
  function DigitsValue(s: string): nat
    requires forall i :: 0 <= i < |s| ==> IsDigit(s[i])
    decreases |s|
  {
    if |s| == 0 then 0
    else
      assert IsDigit(s[|s| - 1]);
      10 * DigitsValue(s[..|s| - 1]) + (s[|s| - 1] as int - '0' as int)
  }

  /** Reading the digits back gives the number: the rendering loses nothing. */
  lemma {:induction false} NatToStringRoundTrip(n: nat)
    ensures DigitsValue(NatToString(n)) == n
    decreases n
  {
    if n >= 10 {
      NatToStringRoundTrip(n / 10);
      var s := NatToString(n);
      assert s[..|s| - 1] == NatToString(n / 10);
    }
  }

  /**
   `s` is a decimal numeral for `i` as Python writes one: an optional minus
   sign, then digits without a leading zero (unless the number is 0), whose
   value is the magnitude of `i`.
   */
  ghost predicate IsDecimalOf(s: string, i: int) {
    if i >= 0 then
      && 1 <= |s| && (forall k :: 0 <= k < |s| ==> IsDigit(s[k]))
      && (s[0] == '0' ==> |s| == 1) && DigitsValue(s) == i
    else
      && 2 <= |s| && s[0] == '-' && (forall k :: 1 <= k < |s| ==> IsDigit(s[k]))
      && s[1] != '0' && DigitsValue(s[1..]) == -i
  }

  /** Python's `str(i)` / `f"{i}"` for an integer. */
  function IntToString(i: int): (s: string)
    ensures 1 <= |s|
    ensures i >= 0 <==> s[0] != '-'
  {
    if i < 0 then "-" + NatToString(-i) else NatToString(i)
  }

  /** The rendering of an integer reads back as that integer. */
  lemma IntToStringReadsBack(i: int)
    ensures IsDecimalOf(IntToString(i), i)
  {
    if i >= 0 {
      NatToStringRoundTrip(i);
    } else {
      var digits := NatToString(-i);
      NatToStringRoundTrip(-i);
      assert IntToString(i)[1..] == digits;
    }
  }
}

=== FILE: depths.dfy ===
/**
 The depth bands of the order book and the pair of column names under which a
 snapshot stores the bid and ask volume of each band (the `depths` table and
 `get_depths` of the chart utilities).
 */
module Depths {
  import opened Common

  /** The error `get_depths` raises for a band outside the table. */
  datatype DepthError = InvalidDepth(band: int)

  /** The bands the table knows, in percent. */
  const Bands: set<int> := {1, 3, 5, 8}

  /** The name of the column holding `side` ("bid" or "ask") volume within `band` percent. */
  function ColumnName(band: int, side: string): string {
    "depth_" + IntToString(band) + "pct_" + side
  }

  /** The `depths` table, written out literally as the source does. */
  const DepthTable: map<int, seq<string>> := map[
    1 := ["depth_1pct_bid", "depth_1pct_ask"],
    3 := ["depth_3pct_bid", "depth_3pct_ask"],
    5 := ["depth_5pct_bid", "depth_5pct_ask"],
    8 := ["depth_8pct_bid", "depth_8pct_ask"]
  ]

  /**
   The bid and ask column names of a band; a band outside the table is an
   error and yields no columns.
   */
  function GetDepths(band: int): (r: Result<seq<string>, DepthError>)
    ensures r.Ok? <==> band in Bands
    ensures r.Ok? ==> r.value == [ColumnName(band, "bid"), ColumnName(band, "ask")]
    ensures r.Err? ==> r.error == InvalidDepth(band)
  {
    if band !in DepthTable then Err(InvalidDepth(band))
    else
      TableFollowsNaming(band);
      Ok(DepthTable[band])
  }

  lemma TableFollowsNaming(band: int)
    requires band in DepthTable
    ensures DepthTable[band] == [ColumnName(band, "bid"), ColumnName(band, "ask")]
  {
    assert DepthTable.Keys == Bands;
    var digit := IntToString(band);
    assert digit == [DigitChar(band)];
    if band == 1 {
      assert digit == "1";
      assert ColumnName(band, "bid") == "depth_1pct_bid";
      assert ColumnName(band, "ask") == "depth_1pct_ask";
    } else if band == 3 {
      assert digit == "3";
      assert ColumnName(band, "bid") == "depth_3pct_bid";
      assert ColumnName(band, "ask") == "depth_3pct_ask";
    } else if band == 5 {
      assert digit == "5";
      assert ColumnName(band, "bid") == "depth_5pct_bid";
      assert ColumnName(band, "ask") == "depth_5pct_ask";
    } else {
      assert band == 8 && digit == "8";
      assert ColumnName(band, "bid") == "depth_8pct_bid";
      assert ColumnName(band, "ask") == "depth_8pct_ask";
    }
  }

  /** Different bands never share a column, and within a band bid and ask differ. */
  lemma ColumnsDistinct(b1: int, b2: int)
    requires b1 in Bands && b2 in Bands
    ensures GetDepths(b1).value[0] != GetDepths(b1).value[1]
    ensures b1 != b2 ==> GetDepths(b1).value[0] != GetDepths(b2).value[0]
    ensures b1 != b2 ==> GetDepths(b1).value[1] != GetDepths(b2).value[1]
    ensures GetDepths(b1).value[0] != GetDepths(b2).value[1]
  {
  }
}
